=== FILE: README.md ===
# TimedRandomGate in Dafny

A model of `TimedRandomGate`, the time-gated random modulator of the
AmateurTools granular noise gate. The gate decides, sample by sample, when a
random "flip" of a gate value is allowed. Its state is:

- a one-hot modulation buffer whose length is the sample rate, with the
  allow marker at index 0;
- a cursor into that buffer;
- a loop length derived from the clamped randomness strength;
- a random generator.

Each per-sample call reads the buffer at the cursor. It then advances the
cursor modulo the loop length. `possiblyFlip` takes that answer plus one
uniform draw and either passes a gate value through or negates it.

The model is functional. The gate is an immutable record (`TimedRandomGate.State`),
and every member function of the class is a pure function from the old state
to the new one. The generator is represented by its seed and by the number of
draws taken since seeding. The value of a draw is a parameter of the call that
consumes it. The shaped chance `strength^1.5` is a function parameter `chance`;
lemmas that need its end points assume `chance(0) = 0` or `chance(1) = 1`.

A buffer read outside its bounds is undefined behaviour in the C++ class. Here
it is an explicit `OutOfBounds` outcome. The in-bounds invariant is
`GateInvariant.Valid`:

- the buffer is one-hot of the rate's length;
- 1 ≤ loop length ≤ rate;
- cursor < rate;
- strength ∈ [0, 1].

`setRandomness`, `reset`, `seed`, `shouldRandomizeThisSample` and
`possiblyFlip` all keep this invariant. For `setRandomness` this rests on
exact arithmetic, which the single-precision code matches only for rates up
to 2^24 (see Left out). The constructor and `setSampleRate`,
as written, do not (see Findings). The corrected forms
`GateInvariant.CreateFixed` and `GateInvariant.SetSampleRateFixed` establish
it, and `GateSession.Exec` uses the corrected rate change. With it, any
sequence of calls from a valid state never reads out of bounds (for rates up
to 2^24).

Modules:

- `TimedRandomGate` (gate.dfy): the state and the class's operations as
  written.
- `GateInvariant` (invariant.dfy): the in-bounds invariant, which operations
  keep it, and the corrected constructor and rate change.
- `GateTrace` (trace.dfy): runs of consecutive per-sample calls. Covers
  periodicity of the allow slot and the out-of-bounds runs of the code as
  written.
- `GateSession` (session.dfy): arbitrary call sequences on one gate, and what
  `possiblyFlip` answers over them.

Where the documented design and the code disagree, the model follows
the code:

- `possiblyFlip` returns `gateValue == 1` rather than the value itself, so any
  gate value other than 0 and 1 comes out false.
- The code does not clamp a non-positive sample rate. A rate of 0 writes slot 0
  of an empty buffer (undefined behaviour), and a negative rate makes the
  buffer resize throw, although the design says no exceptions leave the core.
  The rate is required to be at least 1.
- The loop length is guaranteed to lie in [1, rate] once `setRandomness` has
  been called and the rate has not changed since. Without such a call it lies
  there only when the rate happens to be at least the loop length.

## Model

| member | source | states |
|---|---|---|
| TimedRandomGate.FillOneHotBuffer | TimedRandomGate.h:123-127 | zeroing every slot and then marking slot 0 leaves a buffer of the same length holding 1 at index 0 and 0 everywhere else, equal to the one-hot buffer of that length |
| TimedRandomGate.SetSampleRate | TimedRandomGate.h:67-72 | the buffer becomes length `sr` with a 1 at index 0 and 0 elsewhere; cursor, loop length, strength and generator are untouched |
| TimedRandomGate.Seed | TimedRandomGate.h:74-77 | the generator restarts from the given seed with no draws taken; nothing else changes |
| TimedRandomGate.Create | TimedRandomGate.h:61-65 | a new gate has a one-hot buffer of the rate's length, cursor 0, strength 0, the given seed, and loop length 44100 whatever the rate |
| TimedRandomGate.Reset | TimedRandomGate.h:79-82 | the cursor is 0; buffer, rate, loop length, strength and generator are unchanged |
| TimedRandomGate.LoopSize | TimedRandomGate.h:129-132 | the loop length is at least 1, is the floor of `sr·(1−strength)` when that floor exceeds 1, and is at most `sr` for a positive rate and a clamped strength |
| TimedRandomGate.SetRandomness | TimedRandomGate.h:84-88 | the strength is the amount clamped to [0,1]; the loop length is in [1, sr], is 1 at strength 1 and `sr` at strength 0; no other field changes |
| TimedRandomGate.ShouldRandomize | TimedRandomGate.h:91-97 | the read is in bounds exactly when the cursor is inside the buffer; on a one-hot buffer the answer is true exactly when the cursor is 0; afterwards the cursor is `(pos+1) mod loopLength`, hence inside the loop, and nothing else changes |
| TimedRandomGate.PossiblyFlip | TimedRandomGate.h:100-110 | advances the cursor exactly as one per-sample call does; off the allow slot it returns `gateValue == 1` and takes no draw; on it, it takes exactly one draw, and a 0/1 value is negated exactly when the draw is below the shaped chance; any other value comes out false |
| GateInvariant.ShouldRandomizeKeepsValid | TimedRandomGate.h:93-94 | from a valid gate the read is in bounds, the gate stays valid, and the cursor lands inside the loop |
| GateInvariant.PossiblyFlipKeepsValid | TimedRandomGate.h:100-109 | from a valid gate `possiblyFlip` never reads out of bounds and keeps the gate valid and its loop length derived |
| GateInvariant.SetRandomnessKeepsValid | TimedRandomGate.h:84-88 | `setRandomness` with any amount keeps a valid gate valid and leaves the loop length derived from rate and strength |
| GateInvariant.ResetAndSeedKeepValid | TimedRandomGate.h:74-82 | `reset` and `seed` keep a valid gate valid and coherent |
| GateInvariant.SetSampleRateValidIff | TimedRandomGate.h:67-72 | as written, a rate change keeps a valid gate valid if and only if the new rate exceeds the cursor and is at least the loop length |
| GateInvariant.CreateValidIff | TimedRandomGate.h:113-116 | as written, a new gate is valid if and only if the rate is at least 44100, and its loop length is the derived one only at 44100 |
| GateInvariant.SetSampleRateFixed | TimedRandomGate.h:67-72 | the corrected rate change rewinds the cursor and re-derives the loop length (the rate at strength 0, 1 at strength 1); the result is valid, with strength and generator kept |
| GateInvariant.CreateFixed | TimedRandomGate.h:61-65 | the corrected constructor yields a valid gate whose loop length is the rate (a one-second window), with cursor 0, strength 0 and the given seed |
| GateInvariant.FixedPathsAreCoherent | TimedRandomGate.h:129-132 | after the corrected rate change or construction, the loop length is the one derived from the rate and the strength |
| GateInvariant.CreateFixedDiffersOnlyInLoop | TimedRandomGate.h:116 | the corrected and as-written constructors differ only in the loop length, and coincide at rate 44100 |
| GateInvariant.LoopShrinksWithRandomness | TimedRandomGate.h:129-132 | higher randomness never lengthens the loop; the loop is the rate at strength 0 and 1 at strength 1 |
| GateInvariant.ReinitialiseIsFresh | TimedRandomGate.h:61-88 | randomness 0, then a corrected rate change, then a seed, turns any gate into one freshly built by the corrected constructor `CreateFixed` |
| GateTrace.Trace | TimedRandomGate.h:91-97 | a run of `n` calls either answers all `n` and changes only the cursor, or faults at some call before the `n`-th |
| GateTrace.TraceValid | TimedRandomGate.h:93-94 | from a valid gate every call is answered; call 0 answers whether the cursor starts at 0, call `i > 0` answers whether `pos+i` is a multiple of the loop length; the cursor ends at `(pos+n) mod loopLength` |
| GateTrace.Periodic | TimedRandomGate.h:93-94 | starting on the allow slot, call `i` answers true exactly when `i` is a multiple of the loop length |
| GateTrace.EveryCallAtLoopOne | TimedRandomGate.h:94 | with loop length 1 every call after the first answers true, and the first does too exactly when the cursor starts at 0 |
| GateTrace.OneFirePerBlock | TimedRandomGate.h:93-94 | starting on the allow slot, each block of `loopLength` consecutive calls contains exactly one true answer, at its first call |
| GateTrace.OverlongLoopFaults | TimedRandomGate.h:93-94 | when the loop is longer than the buffer, the call made with the cursor just past the buffer's end reads out of bounds |
| GateTrace.CreateBelowDefaultRateFaults | TimedRandomGate.h:61-65 | as written, a gate built for a rate `sr` below 44100 and given no randomness faults on call number `sr`, counting from 0 |
| GateTrace.ShrinkPastCursorFaults | TimedRandomGate.h:67-72 | as written, lowering the rate to at most the cursor makes the next call read out of bounds |
| GateTrace.ShrinkAfterRunFaults | TimedRandomGate.h:67-72 | as written, after `n` calls inside the loop, lowering the rate to at most `n` makes the next call read out of bounds; after the corrected rate change that call is answered |
| GateTrace.ShrinkExample | TimedRandomGate.h:67-72 | build at 48000 with randomness 0, run 30000 calls, change the rate to 22050: the next call faults; after the corrected rate change it is answered |
| GateSession.Exec | TimedRandomGate.h:61-110 | any sequence of calls from a valid gate, with the corrected rate change, completes without an out-of-bounds read, answers once per query or flip, and leaves the gate valid (and coherent if it was) |
| GateSession.ZeroRandomnessNeverFlips | TimedRandomGate.h:105-109 | at strength 0, with `chance(0) = 0` and draws in [0,1), every `possiblyFlip` in a sequence returns `gateValue == 1` |
| GateSession.FullRandomnessFlipsOnAllowSlot | TimedRandomGate.h:105-109 | at strength 1, with `chance(1) = 1` and a draw in [0,1), an allow-slot call negates a 0/1 gate value |
| GateSession.OtherValuesComeOutFalse | TimedRandomGate.h:100-109 | on a valid gate, a gate value other than 0 and 1 always yields false |
| GateSession.ResetRewindsToAllowSlot | TimedRandomGate.h:79-82 | reset is idempotent, and on a valid gate the call after it lands on the allow slot |

## Left out

- The internals of `std::mt19937`, `std::random_device` and `std::uniform_real_distribution`. A draw is an input value. The generator state is only a seed plus a count of draws taken.
- `std::pow(strength, 1.5f)`: the shaped chance is a function parameter. Only its end points 0 and 1 are used.
- Single-precision rounding: the strength is a real number, and the float product with its truncating cast is the exact floor.
- The rare case where the float distribution returns exactly 1.0 is not modelled. Draws are taken from [0, 1) wherever that matters.
- NaN amounts passed to `std::clamp`.
- The process-wide atomic default-seed counter, a global whose only effect is distinct default seeds. The seed is a parameter of `Create` instead.
- Non-positive sample rates. A rate of 0 is undefined behaviour (TimedRandomGate.h:126 writes slot 0 of an empty vector). A negative rate makes `resize` at TimedRandomGate.h:70 throw `std::length_error`, after TimedRandomGate.h:69 has already stored the rate. Both are excluded by requiring every rate to be at least 1.
- The 32-bit width of `modPosition`, `sampleRate` and `loopLength`. In a valid gate the cursor stays below the rate (not always below the loop length: `setRandomness` can shrink the loop under it), so `modPosition + 1` cannot overflow for any rate an `int` can hold.
- TimedRandomGate.LoopSize: `l <= sr`, and every safety result built on it (`SetRandomnessKeepsValid`, `SetSampleRateFixed`, `CreateFixed`, `GateSession.Exec`), holds for the code only for rates up to 2^24. The code converts the rate to `float`, which is exact only up to 2^24; above that an odd rate can round up (16777219 becomes 16777220.0f, giving a loop one longer than the buffer), and near `INT_MAX` the cast back to `int` is undefined behaviour. The model computes the exact floor.
- The constructor's default argument: `Create(44100, s)` stands for construction without a rate.
- The voice pool and the envelope generator of the wider plugin are not part of this model.

## Findings

| source | as written | input that shows it | evidently intended | confidence | as-written member | corrected member |
|---|---|---|---|---|---|---|
| TimedRandomGate.h:116 | the constructor keeps the member default loop length of 44100 whatever sample rate it is given | construct with sample rate 22050 and call `shouldRandomizeThisSample` 22051 times: the last call reads `modBuffer[22050]` of a 22050-slot buffer | a one-second window, i.e. loop length = sample rate | high; not executed | GateTrace.CreateBelowDefaultRateFaults | GateInvariant.CreateFixed |
| TimedRandomGate.h:67-72 | `setSampleRate` resizes the buffer but neither re-derives the loop length nor brings the cursor back inside | construct at 48000, `setRandomness(0)`, 30000 calls, `setSampleRate(22050)`, then one more call: it reads `modBuffer[30000]` | re-derive the loop length from the new rate and rewind the cursor | high; not executed | GateTrace.ShrinkExample | GateInvariant.SetSampleRateFixed |

=== FILE: gate.dfy ===
/** A model of the time-gated random modulator `TimedRandomGate`.

    The gate owns a one-hot "modulation buffer" holding a single allow marker
    at index 0, a cursor into it and a loop length that shrinks as the
    randomness strength grows. Each per-sample call reads the buffer at the
    cursor and moves the cursor on modulo the loop length; `PossiblyFlip`
    uses that answer and one uniform draw to decide whether to negate a gate
    value.

    Every operation is a pure function from the old state to the new one.
    The random generator is represented by its seed and the number of draws
    taken from it; the value of a draw is an input to the operation that
    consumes it. A read of the buffer outside its bounds, which is undefined
    behaviour in the C++ class, is the `OutOfBounds` outcome here.
 */
module TimedRandomGate {

  /** The `unsigned int` a generator is seeded with. */
  newtype uint32 = x: int | 0 <= x < 0x1_0000_0000

  /** Where a generator is in its stream: the seed that started it and how
      many uniform draws it has handed out since. */
  datatype Rng = Rng(seed: uint32, drawn: nat)

  /** The gate's fields: `buf` is the modulation buffer, `pos` the cursor,
      `sr` the sample rate, `strength` the clamped randomness in [0, 1]. */
  datatype State = State(
    buf: seq<int>,
    pos: nat,
    sr: int,
    loopLength: int,
    strength: real,
    rng: Rng)

  /** The answer of one per-sample call, or the out-of-bounds read the call
      would make. */
  datatype Step = Ok(value: bool, next: State) | OutOfBounds

  /** The buffer of length `n` with the allow marker at index 0 and zeros
      elsewhere. */
  function OneHot(n: nat): (b: seq<int>)
    requires n >= 1
    ensures |b| == n
    ensures forall i :: 0 <= i < n ==> (b[i] == 1 <==> i == 0)
    ensures forall i :: 0 <= i < n ==> (b[i] == 0 <==> i != 0)
  {
    seq(n, i => if i == 0 then 1 else 0)
  }

  /** `fillOneHotBuffer`: zero every slot of the existing buffer, then mark
      slot 0. The buffer must not be empty, as writing slot 0 of an empty
      vector is undefined behaviour. */
  method FillOneHotBuffer(buf: seq<int>) returns (r: seq<int>)
    requires |buf| >= 1
    ensures |r| == |buf|
    ensures r[0] == 1
    ensures forall i :: 1 <= i < |r| ==> r[i] == 0
    ensures r == OneHot(|buf|)
  {
    r := buf;
    var i := 0;
    while i < |r|
      invariant 0 <= i <= |r|
      invariant |r| == |buf|
      invariant forall j :: 0 <= j < i ==> r[j] == 0
    {
      r := r[i := 0];
      i := i + 1;
    }
    r := r[0 := 1];
    assert forall j :: 0 <= j < |r| ==> r[j] == OneHot(|buf|)[j];
  }

  /** `std::clamp(x, 0, 1)` on the randomness amount. */
  function Clamp01(x: real): (c: real)
    ensures 0.0 <= c <= 1.0
    ensures 0.0 <= x <= 1.0 ==> c == x
    ensures x < 0.0 ==> c == 0.0
    ensures x > 1.0 ==> c == 1.0
  {
    if x < 0.0 then 0.0 else if x > 1.0 then 1.0 else x
  }

  /** `updateLoopSize`: `max(1, (int)(sr * (1 - strength)))`. The product is
      never negative for a positive rate and a clamped strength, so the
      truncating cast is the floor. */
  function LoopSize(sr: int, strength: real): (l: int)
    ensures l >= 1
    ensures l > 1 ==> l as real <= sr as real * (1.0 - strength) < (l + 1) as real
    ensures l == 1 ==> sr as real * (1.0 - strength) < 2.0
    ensures sr >= 1 && 0.0 <= strength <= 1.0 ==> l <= sr
  {
    var p := sr as real * (1.0 - strength);
    assert sr >= 1 && 0.0 <= strength <= 1.0 ==> p <= sr as real by {
      if sr >= 1 && 0.0 <= strength <= 1.0 {
        assert p == sr as real - sr as real * strength;
        assert sr as real * strength >= 0.0;
      }
    }
    var f := p.Floor;
    if f > 1 then f else 1
  }

  /** The member defaults a fresh gate has before its constructor body runs.
      The generator is seeded from `std::random_device`; that seed is
      replaced by the constructor before anything can draw from it, so any
      value stands for it here. */
  function Defaults(): State
  {
    State([], 0, 44100, 44100, 0.0, Rng(0, 0))
  }

  /** `setSampleRate`: store the rate and re-lay the buffer as one-hot of the
      new length. The cursor, the loop length, the strength and the generator
      are left as they were. The buffer is laid out by `OneHot`, which is
      what `FillOneHotBuffer` (the `fillOneHotBuffer` call) is proved to
      produce from the resized buffer. */
  function SetSampleRate(g: State, sr: int): (r: State)
    requires sr >= 1
    ensures r.sr == sr && |r.buf| == sr
    ensures r.buf[0] == 1
    ensures forall i :: 1 <= i < sr ==> r.buf[i] == 0
    ensures r.pos == g.pos && r.loopLength == g.loopLength
    ensures r.strength == g.strength && r.rng == g.rng
  {
    g.(sr := sr, buf := OneHot(sr))
  }

  /** `seed`: restart the generator's stream from `s`; nothing else changes. */
  function Seed(g: State, s: uint32): (r: State)
    ensures r.rng.seed == s && r.rng.drawn == 0
    ensures r.buf == g.buf && r.pos == g.pos && r.sr == g.sr
    ensures r.loopLength == g.loopLength && r.strength == g.strength
  {
    g.(rng := Rng(s, 0))
  }

  /** The constructor, as written: set the sample rate and seed the
      generator. The loop length keeps its member default of 44100 whatever
      the rate. */
  function Create(sr: int, s: uint32): (r: State)
    requires sr >= 1
    ensures r.buf == OneHot(sr) && r.sr == sr && r.pos == 0
    ensures r.loopLength == 44100 && r.strength == 0.0
    ensures r.rng == Rng(s, 0)
  {
    Seed(SetSampleRate(Defaults(), sr), s)
  }

  /** `reset`: rewind the cursor to the allow slot; nothing else changes. */
  function Reset(g: State): (r: State)
    ensures r.pos == 0
    ensures r.buf == g.buf && r.sr == g.sr && r.loopLength == g.loopLength
    ensures r.strength == g.strength && r.rng == g.rng
  {
    g.(pos := 0)
  }

  /** `setRandomness`: clamp the amount to [0, 1] and derive the loop length
      from it and the current sample rate. */
  function SetRandomness(g: State, x: real): (r: State)
    ensures 0.0 <= r.strength <= 1.0
    ensures 0.0 <= x <= 1.0 ==> r.strength == x
    ensures x < 0.0 ==> r.strength == 0.0
    ensures x > 1.0 ==> r.strength == 1.0
    ensures r.loopLength >= 1
    ensures g.sr >= 1 ==> r.loopLength <= g.sr
    ensures r.strength == 1.0 ==> r.loopLength == 1
    ensures r.strength == 0.0 && g.sr >= 1 ==> r.loopLength == g.sr
    ensures r.buf == g.buf && r.pos == g.pos && r.sr == g.sr && r.rng == g.rng
  {
    var a := Clamp01(x);
    g.(strength := a, loopLength := LoopSize(g.sr, a))
  }

  /** `shouldRandomizeThisSample`: report whether the cursor is on the allow
      marker, then advance it modulo the loop length. A cursor at or past
      the end of the buffer makes the read go out of bounds. */
  function ShouldRandomize(g: State): (r: Step)
    requires g.loopLength >= 1
    ensures r.Ok? <==> g.pos < |g.buf|
    ensures r.Ok? ==> r.next.pos < g.loopLength
    ensures r.Ok? ==> r.next.pos == (g.pos + 1) % g.loopLength
    ensures r.Ok? ==> r.next == g.(pos := r.next.pos)
    ensures g.pos < |g.buf| && g.buf == OneHot(|g.buf|) ==> (r.value <==> g.pos == 0)
  {
    if g.pos < |g.buf| then
      Ok(g.buf[g.pos] == 1, g.(pos := (g.pos + 1) % g.loopLength))
    else
      OutOfBounds
  }

  /** `possiblyFlip`: off the allow slot, pass `gateValue == 1` through
      without drawing. On the allow slot, take the uniform draw `u` and
      compare it with the shaped chance `chance(strength)`; below it, the
      result is `!gateValue == 1`, otherwise `gateValue == 1`. */
  function PossiblyFlip(g: State, gateValue: int, u: real, chance: real -> real): (r: Step)
    requires g.loopLength >= 1
    ensures r.Ok? <==> g.pos < |g.buf|
    ensures r.Ok? ==> r.next.(rng := g.rng) == ShouldRandomize(g).next
    ensures g.pos < |g.buf| && g.buf[g.pos] != 1 ==>
              r.value == (gateValue == 1) && r.next.rng == g.rng
    ensures g.pos < |g.buf| && g.buf[g.pos] == 1 ==>
              r.next.rng == Rng(g.rng.seed, g.rng.drawn + 1)
    ensures g.pos < |g.buf| && g.buf[g.pos] == 1 && (gateValue == 0 || gateValue == 1) ==>
              (r.value == (gateValue != 1) <==> u < chance(g.strength))
    ensures r.Ok? && gateValue != 0 && gateValue != 1 ==> !r.value
  {
    match ShouldRandomize(g)
    case OutOfBounds => OutOfBounds
    case Ok(allow, next) =>
      if !allow then
        Ok(gateValue == 1, next)
      else
        var flip := u < chance(g.strength);
        var drawn := next.(rng := next.rng.(drawn := next.rng.drawn + 1));
        Ok((if flip then (if gateValue == 0 then 1 else 0) else gateValue) == 1, drawn)
  }
}

=== FILE: invariant.dfy ===
/** The in-bounds invariant of the gate, which operations keep it, and the
    corrected sample-rate and construction paths that establish it.

    The read `buf[pos]` in `shouldRandomizeThisSample` is safe only while the
    cursor lies inside the buffer, and the cursor stays inside only while the
    loop length does not exceed the buffer length. `setRandomness` re-derives
    the loop length from the rate and so keeps both; `setSampleRate` and the
    constructor, as written, do not.
 */
module GateInvariant {
  import opened TimedRandomGate

  /** The buffer is one-hot of the sample rate's length, the loop fits in
      it, the cursor is inside it and the strength is clamped. */
  predicate Valid(g: State)
  {
    && g.sr >= 1
    && g.buf == OneHot(g.sr)
    && 1 <= g.loopLength <= g.sr
    && g.pos < g.sr
    && 0.0 <= g.strength <= 1.0
  }

  /** The loop length is the one derived from the current rate and strength. */
  predicate Coherent(g: State)
  {
    g.loopLength == LoopSize(g.sr, g.strength)
  }

  /** A valid gate answers every per-sample call and stays valid; the cursor
      afterwards lies inside the loop. */
  lemma ShouldRandomizeKeepsValid(g: State)
    requires Valid(g)
    ensures ShouldRandomize(g).Ok?
    ensures Valid(ShouldRandomize(g).next)
    ensures Coherent(g) ==> Coherent(ShouldRandomize(g).next)
    ensures ShouldRandomize(g).next.pos < g.loopLength
  {
  }

  /** The same holds of `possiblyFlip`, whatever the draw and the curve. */
  lemma PossiblyFlipKeepsValid(g: State, gateValue: int, u: real, chance: real -> real)
    requires Valid(g)
    ensures PossiblyFlip(g, gateValue, u, chance).Ok?
    ensures Valid(PossiblyFlip(g, gateValue, u, chance).next)
    ensures Coherent(g) ==> Coherent(PossiblyFlip(g, gateValue, u, chance).next)
  {
    ShouldRandomizeKeepsValid(g);
  }

  /** `setRandomness` keeps the gate valid and makes it coherent, from any
      amount, including ones outside [0, 1]. */
  lemma SetRandomnessKeepsValid(g: State, x: real)
    requires Valid(g)
    ensures Valid(SetRandomness(g, x))
    ensures Coherent(SetRandomness(g, x))
  {
  }

  /** `reset` and `seed` keep the gate valid and coherent. */
  lemma ResetAndSeedKeepValid(g: State, s: uint32)
    requires Valid(g)
    ensures Valid(Reset(g)) && Valid(Seed(g, s))
    ensures Coherent(g) ==> Coherent(Reset(g)) && Coherent(Seed(g, s))
  {
  }

  /** As written, `setSampleRate` keeps a valid gate valid exactly when the
      new rate is past the cursor and no smaller than the loop length. */
  lemma SetSampleRateValidIff(g: State, sr: int)
    requires Valid(g) && sr >= 1
    ensures Valid(SetSampleRate(g, sr)) <==> g.pos < sr && g.loopLength <= sr
  {
  }

  /** As written, the constructor leaves a valid gate exactly when the rate
      is at least the default loop length of 44100. */
  lemma CreateValidIff(sr: int, s: uint32)
    requires sr >= 1
    ensures Valid(Create(sr, s)) <==> sr >= 44100
    ensures Coherent(Create(sr, s)) <==> sr == 44100
  {
    assert LoopSize(sr, 0.0) == sr;
  }

  /** `setSampleRate` as evidently intended: after re-laying the buffer it
      also re-derives the loop length from the new rate and rewinds the
      cursor onto the fresh allow slot. */
  function SetSampleRateFixed(g: State, sr: int): (r: State)
    requires sr >= 1
    requires 0.0 <= g.strength <= 1.0
    ensures Valid(r)
    ensures r.sr == sr && r.pos == 0
    ensures g.strength == 0.0 ==> r.loopLength == sr
    ensures g.strength == 1.0 ==> r.loopLength == 1
    ensures r.strength == g.strength && r.rng == g.rng
  {
    Reset(SetSampleRate(g, sr).(loopLength := LoopSize(sr, g.strength)))
  }

  /** The constructor as evidently intended, a one-second window: the
      loop length is derived from the rate, which at strength 0 makes it
      the rate itself. */
  function CreateFixed(sr: int, s: uint32): (r: State)
    requires sr >= 1
    ensures Valid(r)
    ensures r.sr == sr && r.loopLength == sr && r.pos == 0
    ensures r.strength == 0.0 && r.rng == Rng(s, 0)
  {
    Seed(SetSampleRateFixed(Defaults(), sr), s)
  }

  /** Both corrected paths leave the loop length derived from the rate and
      the strength. */
  lemma FixedPathsAreCoherent(g: State, sr: int, s: uint32)
    requires sr >= 1 && 0.0 <= g.strength <= 1.0
    ensures Coherent(SetSampleRateFixed(g, sr))
    ensures Coherent(CreateFixed(sr, s))
  {
  }

  /** The corrected constructor and the one as written agree on every field
      except the loop length, and on that too at the default rate. */
  lemma CreateFixedDiffersOnlyInLoop(sr: int, s: uint32)
    requires sr >= 1
    ensures CreateFixed(sr, s) == Create(sr, s).(loopLength := sr)
    ensures sr == 44100 ==> CreateFixed(sr, s) == Create(sr, s)
  {
  }

  /** Higher randomness never lengthens the loop: the loop length falls as
      the strength rises, from the rate at 0 down to 1 at 1. */
  lemma LoopShrinksWithRandomness(sr: int, a: real, b: real)
    requires sr >= 1 && 0.0 <= a <= b <= 1.0
    ensures LoopSize(sr, b) <= LoopSize(sr, a)
    ensures LoopSize(sr, 0.0) == sr && LoopSize(sr, 1.0) == 1
  {
    var s := sr as real;
    assert s * (1.0 - b) <= s * (1.0 - a) by {
      assert s * (1.0 - a) - s * (1.0 - b) == s * (b - a);
    }
  }

  /** Re-initialising through the corrected path (randomness 0, rate,
      seed) reproduces a gate freshly built by the corrected constructor
      `CreateFixed`, whatever state came before. */
  lemma ReinitialiseIsFresh(g: State, sr: int, s: uint32)
    requires sr >= 1
    ensures Seed(SetSampleRateFixed(SetRandomness(g, 0.0), sr), s) == CreateFixed(sr, s)
  {
  }
}

=== FILE: session.dfy ===
/** The gate driven by a caller: a sequence of calls on one instance, with
    the sample-rate change in its corrected form, and what `possiblyFlip`
    answers over such a sequence. */
module GateSession {
  import opened TimedRandomGate
  import opened GateInvariant

  /** One call on the gate. `Flip` carries the gate value and the uniform
      draw the generator would hand out if the call reaches the allow slot. */
  datatype Call =
    | SetRate(sr: int)
    | Randomness(amount: real)
    | Rewind
    | Reseed(s: uint32)
    | Query
    | Flip(gate: int, u: real)

  /** The answers of the `Query` and `Flip` calls in order and the final
      state, or the index of the first call that read out of bounds. */
  datatype Outcome = Done(answers: seq<bool>, last: State) | Fault(at: nat)

  /** Every rate change in the sequence names a positive rate. */
  predicate RatesPositive(calls: seq<Call>)
  {
    forall i :: 0 <= i < |calls| ==> (calls[i].SetRate? ==> calls[i].sr >= 1)
  }

  /** The number of calls in the sequence that produce an answer. */
  function Answering(calls: seq<Call>): nat
  {
    if |calls| == 0 then 0
    else (if calls[0].Query? || calls[0].Flip? then 1 else 0) + Answering(calls[1..])
  }

  /** Apply the calls in order. `chance` is the shaped curve applied to the
      strength, `r^1.5` in the code. */
  function Exec(g: State, calls: seq<Call>, chance: real -> real): (r: Outcome)
    requires g.loopLength >= 1 && 0.0 <= g.strength <= 1.0
    requires RatesPositive(calls)
    ensures r.Done? ==> |r.answers| == Answering(calls)
    ensures r.Fault? ==> r.at < |calls|
    ensures Valid(g) ==> r.Done? && Valid(r.last)
    ensures Valid(g) && Coherent(g) ==> Coherent(r.last)
    decreases |calls|
  {
    if |calls| == 0 then Done([], g)
    else
      var rest := calls[1..];
      assert RatesPositive(rest) by {
        forall i | 0 <= i < |rest| ensures rest[i].SetRate? ==> rest[i].sr >= 1 {
          assert rest[i] == calls[i + 1];
        }
      }
      match calls[0]
      case SetRate(sr) => Shift(Exec(SetSampleRateFixed(g, sr), rest, chance), [])
      case Randomness(x) => Shift(Exec(SetRandomness(g, x), rest, chance), [])
      case Rewind => Shift(Exec(Reset(g), rest, chance), [])
      case Reseed(s) => Shift(Exec(Seed(g, s), rest, chance), [])
      case Query =>
        (match ShouldRandomize(g)
         case OutOfBounds => Fault(0)
         case Ok(b, g1) => Shift(Exec(g1, rest, chance), [b]))
      case Flip(v, u) =>
        (match PossiblyFlip(g, v, u, chance)
         case OutOfBounds => Fault(0)
         case Ok(b, g1) => Shift(Exec(g1, rest, chance), [b]))
  }

  /** Prefix the answers of the first call to the outcome of the rest, or
      move a fault one call later. */
  function Shift(o: Outcome, first: seq<bool>): (r: Outcome)
    ensures r.Done? <==> o.Done?
    ensures o.Done? ==> r.answers == first + o.answers && r.last == o.last
    ensures o.Fault? ==> r.at == o.at + 1
  {
    match o
    case Done(bs, last) => Done(first + bs, last)
    case Fault(k) => Fault(k + 1)
  }

  /** Every call in the sequence is a `Flip` whose draw lies in [0, 1). */
  predicate FlipsOnly(calls: seq<Call>)
  {
    forall i :: 0 <= i < |calls| ==> calls[i].Flip? && 0.0 <= calls[i].u < 1.0
  }

  /** At randomness 0, with a curve that maps 0 to 0, `possiblyFlip` is the
      identity on every call, allow slot or not. */
  lemma {:induction false} ZeroRandomnessNeverFlips(g: State, calls: seq<Call>, chance: real -> real)
    requires Valid(g) && g.strength == 0.0 && chance(0.0) == 0.0
    requires FlipsOnly(calls)
    ensures RatesPositive(calls)
    ensures Exec(g, calls, chance).Done?
    ensures |Exec(g, calls, chance).answers| == |calls|
    ensures forall i :: 0 <= i < |calls| ==>
              Exec(g, calls, chance).answers[i] == (calls[i].gate == 1)
    decreases |calls|
  {
    if |calls| > 0 {
      var rest := calls[1..];
      assert FlipsOnly(rest) by {
        forall i | 0 <= i < |rest| ensures rest[i].Flip? && 0.0 <= rest[i].u < 1.0 {
          assert rest[i] == calls[i + 1];
        }
      }
      var c := calls[0];
      PossiblyFlipKeepsValid(g, c.gate, c.u, chance);
      var g1 := PossiblyFlip(g, c.gate, c.u, chance).next;
      ZeroRandomnessNeverFlips(g1, rest, chance);
      var tail := Exec(g1, rest, chance).answers;
      assert Exec(g, calls, chance).answers == [PossiblyFlip(g, c.gate, c.u, chance).value] + tail;
      forall i | 0 <= i < |calls|
        ensures Exec(g, calls, chance).answers[i] == (calls[i].gate == 1)
      {
        if i > 0 {
          assert calls[i] == rest[i - 1];
        }
      }
    }
  }

  /** At randomness 1, with a curve that maps 1 to 1, every allow-slot call
      negates a 0/1 gate value. */
  lemma FullRandomnessFlipsOnAllowSlot(g: State, v: int, u: real, chance: real -> real)
    requires Valid(g) && g.strength == 1.0 && chance(1.0) == 1.0
    requires g.pos == 0 && (v == 0 || v == 1) && 0.0 <= u < 1.0
    ensures PossiblyFlip(g, v, u, chance).Ok?
    ensures PossiblyFlip(g, v, u, chance).value == (v == 0)
  {
  }

  /** A value other than 0 or 1 always comes out false, flipped or not. */
  lemma OtherValuesComeOutFalse(g: State, v: int, u: real, chance: real -> real)
    requires Valid(g) && v != 0 && v != 1
    ensures PossiblyFlip(g, v, u, chance).Ok?
    ensures !PossiblyFlip(g, v, u, chance).value
  {
    PossiblyFlipKeepsValid(g, v, u, chance);
  }

  /** `reset` rewinds only the cursor: a second reset changes nothing, and
      on a valid gate the next call lands on the allow slot. */
  lemma ResetRewindsToAllowSlot(g: State)
    requires Valid(g)
    ensures Reset(Reset(g)) == Reset(g)
    ensures ShouldRandomize(Reset(g)).Ok? && ShouldRandomize(Reset(g)).value
  {
  }
}

=== FILE: trace.dfy ===
/** Runs of consecutive per-sample calls: when the allow slot comes round,
    and where a run reads outside the buffer. */
module GateTrace {
  import opened TimedRandomGate
  import opened GateInvariant

  /** The answers of a run of per-sample calls and the state after it, or
      the index of the first call whose read is out of bounds. */
  datatype Run = Ran(fired: seq<bool>, last: State) | Faulted(at: nat)

  /** `n` consecutive calls of `shouldRandomizeThisSample`. */
  function Trace(g: State, n: nat): (r: Run)
    requires g.loopLength >= 1
    ensures r.Ran? ==> |r.fired| == n && r.last == g.(pos := r.last.pos)
    ensures r.Faulted? ==> r.at < n
    decreases n
  {
    if n == 0 then Ran([], g)
    else
      match ShouldRandomize(g)
      case OutOfBounds => Faulted(0)
      case Ok(b, g1) =>
        match Trace(g1, n - 1)
        case Faulted(k) => Faulted(k + 1)
        case Ran(bs, last) => Ran([b] + bs, last)
  }

  /** The number of calls in a run that answered true. */
  function Count(bs: seq<bool>): nat
  {
    if |bs| == 0 then 0 else (if bs[0] then 1 else 0) + Count(bs[1..])
  }

  lemma {:induction false} ModShift(a: nat, b: nat, l: int)
    requires l >= 1
    ensures (a % l + b) % l == (a + b) % l
  {
    var q := a / l;
    assert a == q * l + a % l;
    assert a + b == (a % l + b) + q * l;
    ModAddMultiple(a % l + b, q, l);
  }

  lemma MulAtLeast(a: int, l: int)
    requires a >= 1 && l >= 1
    ensures a * l >= l
  {
    assert a * l == (a - 1) * l + l;
  }

  lemma ModUnique(x: nat, k: int, r: int, l: int)
    requires l >= 1 && 0 <= r < l && x == k * l + r
    ensures x % l == r
  {
    var q, m := x / l, x % l;
    assert x == q * l + m;
    var d := q - k;
    assert d * l == r - m by {
      assert d * l == q * l - k * l;
    }
    if d > 0 {
      MulAtLeast(d, l);
    } else if d < 0 {
      MulAtLeast(-d, l);
    }
  }

  lemma {:induction false} ModAddMultiple(x: nat, q: nat, l: int)
    requires l >= 1
    ensures (x + q * l) % l == x % l
  {
    var d := x / l;
    assert x == d * l + x % l;
    assert x + q * l == (d + q) * l + x % l;
    ModUnique(x + q * l, d + q, x % l, l);
  }

  /** From a valid gate every call is answered. The first answers whether
      the cursor starts on the allow slot; after that, call `i` answers
      true exactly when `pos + i` is a multiple of the loop length. */
  lemma {:induction false} TraceValid(g: State, n: nat)
    requires Valid(g)
    ensures Trace(g, n).Ran?
    ensures Valid(Trace(g, n).last)
    ensures n > 0 ==> (Trace(g, n).fired[0] <==> g.pos == 0)
    ensures forall i :: 0 < i < n ==>
              (Trace(g, n).fired[i] <==> (g.pos + i) % g.loopLength == 0)
    ensures n > 0 ==> Trace(g, n).last.pos == (g.pos + n) % g.loopLength
    ensures n == 0 ==> Trace(g, n).last == g
    decreases n
  {
    if n > 0 {
      var l := g.loopLength;
      ShouldRandomizeKeepsValid(g);
      var g1 := ShouldRandomize(g).next;
      assert g1.pos == (g.pos + 1) % l < l;
      TraceValid(g1, n - 1);
      var r := Trace(g, n);
      var r1 := Trace(g1, n - 1);
      assert r.fired == [g.pos == 0] + r1.fired;
      forall i | 0 < i < n
        ensures r.fired[i] <==> (g.pos + i) % l == 0
      {
        assert r.fired[i] == r1.fired[i - 1];
        ModShift(g.pos + 1, i - 1, l);
        if i == 1 {
          assert g1.pos % l == g1.pos;
        }
      }
      if n > 1 {
        ModShift(g.pos + 1, n - 1, l);
      }
    }
  }

  /** Starting on the allow slot, call `i` answers true exactly when `i` is
      a multiple of the loop length, and the cursor ends `n` calls on. */
  lemma Periodic(g: State, n: nat)
    requires Valid(g) && g.pos == 0
    ensures Trace(g, n).Ran?
    ensures forall i :: 0 <= i < n ==> (Trace(g, n).fired[i] <==> i % g.loopLength == 0)
    ensures Trace(g, n).last.pos == n % g.loopLength
  {
    TraceValid(g, n);
    var f := Trace(g, n).fired;
    forall i | 0 <= i < n
      ensures f[i] <==> i % g.loopLength == 0
    {
      if i == 0 {
        assert f[0] <==> g.pos == 0;
      } else {
        assert g.pos + i == i;
      }
    }
    if n == 0 {
      assert Trace(g, n).last == g;
    }
  }

  /** With a loop of length 1 every call answers true, except a first call
      made while the cursor is still past the allow slot. */
  lemma EveryCallAtLoopOne(g: State, n: nat)
    requires Valid(g) && g.loopLength == 1
    ensures Trace(g, n).Ran?
    ensures forall i :: 0 < i < n ==> Trace(g, n).fired[i]
    ensures n > 0 ==> (Trace(g, n).fired[0] <==> g.pos == 0)
  {
    TraceValid(g, n);
  }

  lemma {:induction false} CountNone(bs: seq<bool>)
    requires forall t :: 0 <= t < |bs| ==> !bs[t]
    ensures Count(bs) == 0
    decreases |bs|
  {
    if |bs| > 0 {
      CountNone(bs[1..]);
    }
  }

  lemma {:induction false} ModOfBlock(j: nat, t: nat, l: int)
    requires l >= 1 && t < l
    ensures (j * l + t) % l == t
  {
    ModAddMultiple(t, j, l);
    assert j * l + t == t + j * l;
  }

  /** Starting on the allow slot, block `j` of `loopLength` consecutive
      calls holds exactly one true answer, at its first call. */
  lemma OneFirePerBlock(g: State, n: nat, j: nat)
    requires Valid(g) && g.pos == 0
    requires (j + 1) * g.loopLength <= n
    ensures Trace(g, n).Ran?
    ensures Trace(g, n).fired[j * g.loopLength]
    ensures Count(Trace(g, n).fired[j * g.loopLength .. (j + 1) * g.loopLength]) == 1
  {
    var l := g.loopLength;
    Periodic(g, n);
    var f := Trace(g, n).fired;
    var block := f[j * l .. (j + 1) * l];
    assert |block| == l by {
      assert (j + 1) * l == j * l + l;
    }
    forall t | 0 <= t < l
      ensures block[t] <==> t == 0
    {
      ModOfBlock(j, t, l);
      assert block[t] == f[j * l + t];
    }
    ModOfBlock(j, 0, l);
    CountNone(block[1..]);
  }

  /** While the loop is longer than the buffer, the cursor walks off its
      end: counting from the cursor, the call after the last slot faults. */
  lemma {:induction false} OverlongLoopFaults(g: State)
    requires |g.buf| < g.loopLength
    requires g.pos <= |g.buf|
    ensures Trace(g, |g.buf| - g.pos + 1) == Faulted(|g.buf| - g.pos)
    decreases |g.buf| - g.pos
  {
    if g.pos < |g.buf| {
      var g1 := ShouldRandomize(g).next;
      assert g1.pos == g.pos + 1;
      OverlongLoopFaults(g1);
    }
  }

  /** As written, a gate built for a rate below 44100 and never given a
      randomness amount reads past its buffer on call `sr` (counting from
      zero). */
  lemma CreateBelowDefaultRateFaults(sr: int, s: uint32)
    requires 1 <= sr < 44100
    ensures Trace(Create(sr, s), sr + 1) == Faulted(sr)
  {
    OverlongLoopFaults(Create(sr, s));
  }

  /** As written, shrinking the rate to at most the cursor makes the very
      next call read past the buffer. */
  lemma ShrinkPastCursorFaults(g: State, sr: int)
    requires Valid(g) && 1 <= sr <= g.pos
    ensures ShouldRandomize(SetSampleRate(g, sr)).OutOfBounds?
  {
  }

  /** As written, running `n` calls inside the loop and then lowering the
      rate to at most `n` makes the next call read out of bounds; the
      corrected rate change leaves it answered. */
  lemma ShrinkAfterRunFaults(g: State, n: nat, sr: int)
    requires Valid(g) && g.pos == 0 && n < g.loopLength
    requires 1 <= sr <= n
    ensures Trace(g, n).Ran? && Trace(g, n).last.pos == n
    ensures ShouldRandomize(SetSampleRate(Trace(g, n).last, sr)).OutOfBounds?
    ensures ShouldRandomize(SetSampleRateFixed(Trace(g, n).last, sr)).Ok?
  {
    Periodic(g, n);
    var last := Trace(g, n).last;
    ModUnique(n, 0, n, g.loopLength);
    assert last.pos == n;
    assert |SetSampleRate(last, sr).buf| == sr;
    ShouldRandomizeKeepsValid(SetSampleRateFixed(last, sr));
  }

  /** A concrete instance: build at 48000 with randomness 0, run 30000
      samples, switch to 22050; the next call reads slot 30000 of a buffer
      of 22050. The corrected rate change rewinds the cursor instead. */
  lemma ShrinkExample(s: uint32)
    ensures var g := SetRandomness(Create(48000, s), 0.0);
            && Trace(g, 30000).Ran?
            && Trace(g, 30000).last.pos == 30000
            && ShouldRandomize(SetSampleRate(Trace(g, 30000).last, 22050)).OutOfBounds?
            && ShouldRandomize(SetSampleRateFixed(Trace(g, 30000).last, 22050)).Ok?
  {
    var g0 := Create(48000, s);
    CreateValidIff(48000, s);
    SetRandomnessKeepsValid(g0, 0.0);
    ShrinkAfterRunFaults(SetRandomness(g0, 0.0), 30000, 22050);
  }
}
